=== FILE: README.md ===
# Shared state and cookie sessions of the LinkedIn bot, in Dafny

This project models the stateful core of the bot. It has three parts:

- `ConcurrentMap` (`ConcurrentMap.dfy`) is the thread-safe dictionary with a
  Qt-style API. Every method runs entirely under one re-entrant lock, so each
  call is modelled as one atomic transition of the underlying Python `dict`.
  A `CMap` keeps the bindings (`data`) and the keys in insertion order
  (`order`): Python dicts iterate in insertion order, and `keys()`,
  `values()`, `items()`, `forEach` and `iter` expose that order. A stored
  value is an `Option`, where `None` is Python's `None`. This makes the
  source's quirks statable: `value` with its default `None`, `find`, `take`
  and `__getitem__` cannot tell a stored `None` from a missing key. `CMap.Valid()` is the
  representation invariant: `order` lists every bound key exactly once.
  `Empty` establishes it and every operation preserves it.
- `Global` (`GlobalState.dfy`) is the process-wide registry, a facade over
  one string-keyed `ConcurrentMap`. There is a single class-level store, so
  the calls from all call sites form one history. `Run` executes such a
  history and `LastWrite` is an independent reference meaning of it. The
  lemmas show that every `get` and `remove` answers according to the latest
  `set`, `remove` or `clear` before it, whichever call site issued them.
- `Session` (`Session.dfy`) is the cookie-session store. The session file is
  `<dir>/session_<port>.json`, where the directory falls back to
  `./sessions`. The file system is a map from paths to contents: a file whose
  bytes parse as a cookie list holds `Some(cookies)`, and one whose bytes do
  not holds `None`. The I/O faults that the source catches become explicit
  parameters: `WriteFault`, `readOk`, `addOk` and `unlinkOk`.

An empty saved cookie list does not load: `src/session.py:34` tests the
list's truthiness, so `load` returns `False` (`Session.Load`,
`Session.SaveEmptyThenLoad`).

## Model

| member | source | states |
|---|---|---|
| ConcurrentMap.Empty | concurrent_map.py:13-16 | a new map is valid and binds no key |
| ConcurrentMap.Insert | concurrent_map.py:18-21 | `k` is bound to `v`, every other key keeps its binding, and a new key is appended to the iteration order while a present one keeps its place |
| ConcurrentMap.InsertThenValue | concurrent_map.py:18-26 | after `insert(k, v)`, `value(k)` returns `v` and every other key reads as before |
| ConcurrentMap.InsertMulti | concurrent_map.py:81-84 | `insertMulti` binds the key to the new value and adds an entry only for a new key |
| ConcurrentMap.InsertMultiOverwrites | concurrent_map.py:81-84 | two `insertMulti` calls on one key give exactly the map a single `insert` of the last value gives: one binding, no duplicate entry |
| ConcurrentMap.Value | concurrent_map.py:23-26 | returns the stored value of a bound key (even `None`) and the default for an unbound key |
| ConcurrentMap.Find | concurrent_map.py:76-79 | `find(k)` is `value(k, None)`: a non-`None` result is the stored value, and a missing key gives `None` |
| ConcurrentMap.Remove | concurrent_map.py:28-34 | returns true iff `k` was bound; afterwards `k` is unbound, every other binding is unchanged, and nothing changes when `k` was absent |
| ConcurrentMap.InsertThenRemove | concurrent_map.py:18-34 | removing a freshly inserted key restores the original map, iteration order included, and reports true |
| ConcurrentMap.RemoveTwice | concurrent_map.py:28-34 | a second `remove` of the same key returns false and changes nothing |
| ConcurrentMap.Contains | concurrent_map.py:36-39 | `contains(k)` holds iff `k` is in the `keys()` snapshot |
| ConcurrentMap.Keys | concurrent_map.py:41-44 | the snapshot lists every bound key exactly once and has `count()` entries |
| ConcurrentMap.Count | concurrent_map.py:61-64 | `count()` is the length of the `keys()` snapshot, and is zero exactly when that snapshot is empty |
| ConcurrentMap.CountIsKeysLength | concurrent_map.py:61-64 | `count()` equals the length of the `keys()` snapshot |
| ConcurrentMap.Values | concurrent_map.py:46-49 | the values snapshot pairs up position by position with `keys()` |
| ConcurrentMap.Items | concurrent_map.py:51-54 | the items snapshot has one pair per bound key, with the key's current value, no key twice, in the order of `keys()` |
| ConcurrentMap.Clear | concurrent_map.py:56-59 | afterwards no key is contained and `count()` is zero |
| ConcurrentMap.ClearEmpties | concurrent_map.py:56-69 | after `clear()`, `isEmpty()` holds and `keys()` is empty |
| ConcurrentMap.IsEmpty | concurrent_map.py:66-69 | `isEmpty()` holds iff `count()` is zero, iff `keys()` is empty |
| ConcurrentMap.Len | concurrent_map.py:97-99 | `len(m)` is the number of keys in the snapshot |
| ConcurrentMap.UpdateFrom | concurrent_map.py:71-74 | inserting a key list from a source map: the listed keys end with the source's values, the other keys keep theirs, and the old iteration order stays a prefix |
| ConcurrentMap.Unite | concurrent_map.py:71-74 | `unite(other)`: every key of `other` ends with `other`'s value (other wins on overlap), keys outside `other` keep their bindings, and old keys keep their order |
| ConcurrentMap.UniteIntoEmpty | concurrent_map.py:71-74 | uniting into an empty map yields a copy of `other`, with the same bindings in the same order |
| ConcurrentMap.UniteWithEmpty | concurrent_map.py:71-74 | uniting with an empty map changes nothing |
| ConcurrentMap.Take | concurrent_map.py:86-89 | `take(k)` returns the old value, or `None` when `k` is absent; `k` ends unbound, other keys are untouched, and an absent key leaves the map unchanged |
| ConcurrentMap.TakeNoneAmbiguous | concurrent_map.py:86-89 | `take` returns `None` exactly when the key is absent or holds `None`, and its result is `find`'s |
| ConcurrentMap.InsertThenTake | concurrent_map.py:86-89 | taking a freshly inserted key returns its value and the original map |
| ConcurrentMap.ForEach | concurrent_map.py:91-95 | the callback runs once per entry present at call time, with that entry's key and value, no key twice, in insertion order (the calls are exactly `items()`), and the final state is the callback folded over those calls in order |
| ConcurrentMap.GetItem | concurrent_map.py:101-106 | `m[k]` succeeds iff `k` is bound to a non-`None` value and returns that value; otherwise it raises `KeyError(k)`, also for a stored `None` |
| ConcurrentMap.SetItem | concurrent_map.py:108-110 | `m[k] = v` is `insert`, after which `m[k]` succeeds iff `v` is not `None` |
| ConcurrentMap.DelItem | concurrent_map.py:112-115 | `del m[k]` raises `KeyError(k)` iff `k` was absent; otherwise the result is `remove(k)`'s map: `k` is gone, every other key keeps its binding and value, and the map has one entry fewer |
| ConcurrentMap.ContainsItem | concurrent_map.py:117-119 | `k in m` holds iff `find(k)` is not `None` or `k` holds a stored `None` |
| ConcurrentMap.Iter | concurrent_map.py:121-124 | iteration visits each contained key exactly once |
| GlobalState.Init | state.py:10 | the class-level store starts valid and empty |
| GlobalState.Set | state.py:12-15 | `set(k, v)` makes `get(k, d)` return `v` for every default and leaves every other key as it was |
| GlobalState.Get | state.py:17-20 | `get(k, d)` returns the stored value of a bound key and `d` otherwise |
| GlobalState.Contains | state.py:22-25 | `contains(k)` holds iff `k` is in the store's key snapshot |
| GlobalState.Remove | state.py:27-30 | `remove(k)` returns true iff `k` was present; afterwards `contains(k)` is false, `get(k, d)` is `d`, and other keys are unchanged |
| GlobalState.Clear | state.py:32-35 | after `clear()` no key is contained and every `get` returns its default |
| GlobalState.SetThenGet | state.py:12-20 | `set` then `get` of the same key returns the value set, even a stored `None` over another default |
| GlobalState.GetDefaultWhenUnbound | state.py:17-30 | `get(k, d)` is `d` for a key never set and for a key just removed |
| GlobalState.Step | state.py:12-35 | one atomic call; `get` and `contains` leave the store unchanged |
| GlobalState.Run | state.py:10 | a history of calls on the one shared store yields one reply per call |
| GlobalState.RunMatchesLastWrite | state.py:10-35 | after any history, `contains` and `get` agree with the reference meaning: the latest `set`, `remove` or `clear` touching the key decides |
| GlobalState.RunPrefix | state.py:10 | the reply to a call depends only on the calls before it |
| GlobalState.GetSeesLatestSet | state.py:10-20 | a `get` anywhere in a history returns the value of the latest earlier `set` of its key from any call site, or its default if a `remove` or `clear` came after that `set` |
| GlobalState.RemoveSeesHistory | state.py:27-30 | a `remove` in a history returns true iff the history before it left the key bound |
| Session.NatTextInjective | src/session.py:12 | different non-negative ports have different decimal renderings |
| Session.IntTextInjective | src/session.py:12 | `str(port)` is injective, negative ports included |
| Session.FileName | src/session.py:12 | the file name is `session_`, the port in decimal, then `.json` |
| Session.FileNameInjective | src/session.py:12 | different ports give different session file names |
| Session.DirOrDefault | src/session.py:10 | a missing or empty directory falls back to `./sessions`; any other directory is kept |
| Session.NewSession | src/session.py:8-12 | the session file lies in the chosen directory and is named `session_<port>.json` |
| Session.SessionFileIdentity | src/session.py:8-12 | two sessions share a file iff their effective directories and their ports are equal |
| Session.DefaultSessionFile | src/session.py:8-12 | `Session()` with no arguments uses `./sessions/session_9222.json` |
| Session.Save | src/session.py:14-25 | `save` returns true iff a page is given and the write succeeds, and then the file holds the page's cookie list; without a page nothing is written; a failed write leaves the file untouched or unreadable |
| Session.Load | src/session.py:27-41 | `load` returns true iff a page is given, the file exists, reading it succeeds, it holds a non-empty cookie list, and the context accepts it; then exactly that list is added to the page's cookies, and otherwise the page is unchanged |
| Session.Clear | src/session.py:43-45 | `clear` returns true iff the file existed and was deleted; afterwards it no longer exists |
| Session.Exists | src/session.py:47-49 | a session that does not exist loads into no page: `load` returns false and leaves the page as it was |
| Session.ExistsTracksOperations | src/session.py:14-49 | after `save` the file exists iff it existed before or a page was given and the file got opened; a successful save leaves it existing; `clear` succeeds iff the file exists and the deletion succeeds; a successful `load` implies the file exists |
| Session.SaveThenLoad | src/session.py:14-38 | a successful save of a non-empty cookie list, then a load whose read succeeds into a page with no cookies, restores exactly that list and returns true |
| Session.SaveEmptyThenLoad | src/session.py:32-38 | saving an empty list succeeds, but loading it returns false and adds nothing |
| Session.FailedSaveDoesNotLoad | utils.py:122-137 | a save whose JSON dump failed after the file was opened leaves a session that does not load |
| Session.LoadWithoutFileOrPage | src/session.py:27-30 | without a page or without the session file, `load` returns false and adds nothing |
| Session.ClearTwice | utils.py:144-159 | after a successful clear the session does not exist, and a second clear returns false without failing |
| Session.SavesOfDifferentPortsIndependent | src/session.py:12 | saving the session of one port changes neither the load result nor the existence of another port's session in the same directory |

## Left out

- The `threading.RLock` (concurrent_map.py:16) is not modelled. Each method is one atomic step, and a history of calls is one interleaving of them.
- `__repr__`/`__str__` format Python dicts as strings and are not modelled.
- ConcurrentMap.ForEach: the model promises one call per entry only for a callback that returns normally and does not add or remove keys. The callback is a pure state transformer here. In the source, a callback that only reads the map, or overwrites existing keys, runs fine under the re-entrant lock. A callback that changes the number of keys makes Python raise `RuntimeError` at the next iteration step. One that removes and adds keys in the same call may raise later, or may finish normally after visiting a key that was absent at call time. A callback that raises stops the loop after some entries and propagates the exception out of `forEach` (concurrent_map.py:94-95). None of these is modelled.
- `ConcurrentMap` keys must be hashable in Python; any Dafny type stands in for them.
- Session.NewSession: `pathlib` normalisation is not modelled. For example, `Path("./sessions")` prints as `sessions`, and trailing slashes are dropped. A path is kept as a (directory, file name) pair, so two spellings of one directory count as different directories.
- `mkdir(exist_ok=True)` in the `Session` constructor is left out. It is I/O, and it raises when the parent directory is missing. The directory is treated as existing.
- The JSON encoding of cookies is opaque. A session file whose bytes parse holds a cookie list, and one whose bytes do not parse is `None`; a failure to open or read an existing file is the separate `readOk` fault. A file whose JSON is valid but is not a cookie list is not modelled.
- Session.Load: the browser's cookie-jar merge is not modelled. Cookies with the same name, domain and path replace each other in the browser. In the model, the loaded cookies are appended to the page's jar.
- Session.Exists: the existence test `Path.exists()` (utils.py:139-142) fails in the source when the file's status cannot be read for a reason other than its absence, for example a `PermissionError` on the session directory. No `try` guards it in `exists` (src/session.py:49) or at the head of `load` (src/session.py:29), so both raise then. The model treats the test as never failing: `Exists` always returns a bool, and `Session.Load` always returns a page and a flag.
- Cookie `expires` is a float in the browser and is an integer here.
- Console output (`print`) is left out.
- The `Utils` Qt helpers (`InvokeHelper`, `safe_invoke`) are left out because they are event-loop plumbing. The plain text file helpers are left out because the session store does not use them.
- The browser wrapper (`src/browser.py`) is left out: every step is a call into the browser automation driver. The login and challenge workers (`src/worker/`) are left out for the same reason. The in-page script and the application entry point and configuration (`main.py`, `config.py`) are left out as well.

=== FILE: ConcurrentMap.dfy ===
/** The thread-safe dictionary of `concurrent_map.py`.

    Every public method of the source runs its whole body under one
    re-entrant lock, so, seen sequentially, each call is one atomic
    transition of the underlying Python `dict`. A `CMap` is that dict:
    `data` holds the bindings and `order` the keys in insertion order,
    which is the order `keys()`, `values()`, `items()`, `forEach` and
    iteration expose. A stored value is an `Option`: `None` is Python's
    `None` stored under a key, which the source cannot tell apart from a
    missing key in `value` with its default `None`, `find`, `take` and
    `__getitem__`.
 */
module ConcurrentMap {
  import opened Wrappers

  /** The exception a dunder accessor raises. */
  datatype MapError<K> = KeyError(key: K)

  /** No element of `s` occurs twice. */
  ghost predicate Distinct<T>(s: seq<T>) {
    forall i, j :: 0 <= i < j < |s| ==> s[i] != s[j]
  }

  datatype CMap<K(!new), V> = CMap(order: seq<K>, data: map<K, Option<V>>) {

    /** Representation invariant: `order` lists every bound key exactly once. */
    ghost predicate Valid() {
      && Distinct(order)
      && (forall k :: k in data <==> k in order)
    }
  }

  /** `s` with `x` dropped, the other elements kept in their order. */
  function Without<T(==,!new)>(s: seq<T>, x: T): (r: seq<T>)
    ensures forall y :: y in r <==> y in s && y != x
    ensures Distinct(s) ==> Distinct(r)
    ensures x !in s ==> r == s
  {
    if s == [] then []
    else
      assert s == [s[0]] + s[1..];
      assert Distinct(s) ==> Distinct(s[1..]) && s[0] !in s[1..] by {
        DistinctCons(s[0], s[1..]);
      }
      if s[0] == x then Without(s[1..], x)
      else
        var rest := Without(s[1..], x);
        DistinctCons(s[0], rest);
        [s[0]] + rest
  }

  /** A sequence with a head is repetition-free iff its head is not repeated
      in its tail and its tail is repetition-free. */
  lemma DistinctCons<T>(a: T, t: seq<T>)
    ensures Distinct([a] + t) <==> a !in t && Distinct(t)
  {
    var s := [a] + t;
    if Distinct(s) {
      forall i, j | 0 <= i < j < |t| ensures t[i] != t[j] {
        assert t[i] == s[i + 1] && t[j] == s[j + 1];
      }
      forall i | 0 <= i < |t| ensures t[i] != a {
        assert s[0] == a && t[i] == s[i + 1];
      }
    }
    if a !in t && Distinct(t) {
      forall i, j | 0 <= i < j < |s| ensures s[i] != s[j] {
        if i == 0 {
          assert s[j] == t[j - 1];
        } else {
          assert s[i] == t[i - 1] && s[j] == t[j - 1];
        }
      }
    }
  }

  /** A set built from a sequence without repetitions has the sequence's length. */
  lemma {:induction false} DistinctCardinality<T(!new)>(s: seq<T>)
    requires Distinct(s)
    ensures |set x | x in s| == |s|
  {
    if s != [] {
      assert s == [s[0]] + s[1..];
      DistinctCons(s[0], s[1..]);
      DistinctCardinality(s[1..]);
      assert (set x | x in s) == (set x | x in s[1..]) + {s[0]};
    }
  }

  /** `ConcurrentMap()`: a fresh, empty map. */
  function Empty<K(!new), V>(): (m: CMap<K, V>)
    ensures m.Valid()
    ensures forall k :: k !in m.data
  {
    CMap([], map[])
  }

  /** `insert(key, value)`: binds `k` to `v`. A new key goes to the end of the
      iteration order; rebinding a present key keeps its position. */
  function Insert<K(!new), V>(m: CMap<K, V>, k: K, v: Option<V>): (r: CMap<K, V>)
    requires m.Valid()
    ensures r.Valid()
    ensures k in r.data && r.data[k] == v
    ensures forall j :: j != k ==> (j in r.data <==> j in m.data)
    ensures forall j :: j != k && j in m.data ==> r.data[j] == m.data[j]
    ensures k in m.data ==> r.order == m.order
    ensures k !in m.data ==> r.order == m.order + [k]
  {
    if k in m.data then CMap(m.order, m.data[k := v])
    else CMap(m.order + [k], m.data[k := v])
  }

  /** `insertMulti(key, value)`: despite its name, a plain overwrite. */
  function InsertMulti<K(!new), V>(m: CMap<K, V>, k: K, v: Option<V>): (r: CMap<K, V>)
    requires m.Valid()
    ensures r.Valid()
    ensures k in r.data && r.data[k] == v
    ensures |r.data| == |m.data| + (if k in m.data then 0 else 1)
    ensures r == Insert(m, k, v)
  {
    Insert(m, k, v)
  }

  /** `value(key, default)`: `dict.get(key, default)`. */
  function Value<K(!new), V>(m: CMap<K, V>, k: K, default: Option<V>): (r: Option<V>)
    ensures k in m.data ==> r == m.data[k]
    ensures k !in m.data ==> r == default
  {
    if k in m.data then m.data[k] else default
  }

  /** `find(key)`: `value(key)` with the default `None`. */
  function Find<K(!new), V>(m: CMap<K, V>, k: K): (r: Option<V>)
    ensures r.Some? ==> k in m.data && m.data[k] == r
    ensures k !in m.data ==> r == None
    ensures r == Value(m, k, None)
  {
    Value(m, k, None)
  }

  /** `remove(key)`: unbinds `k`; the flag says whether it was bound. */
  function Remove<K(!new), V>(m: CMap<K, V>, k: K): (r: (CMap<K, V>, bool))
    requires m.Valid()
    ensures r.0.Valid()
    ensures r.1 <==> k in m.data
    ensures k !in r.0.data
    ensures forall j :: j != k ==> (j in r.0.data <==> j in m.data)
    ensures forall j :: j != k && j in m.data ==> r.0.data[j] == m.data[j]
    ensures !r.1 ==> r.0 == m
  {
    if k in m.data then (CMap(Without(m.order, k), m.data - {k}), true)
    else (m, false)
  }

  /** `contains(key)`. */
  function Contains<K(!new), V>(m: CMap<K, V>, k: K): (r: bool)
    requires m.Valid()
    ensures r <==> k in Keys(m)
  {
    k in m.data
  }

  /** `keys()`: a snapshot listing every bound key once, in insertion order. */
  function Keys<K(!new), V>(m: CMap<K, V>): (r: seq<K>)
    requires m.Valid()
    ensures Distinct(r)
    ensures forall k :: k in r <==> k in m.data
    ensures |r| == |m.data|
  {
    CountIsKeysLength(m);
    m.order
  }

  /** `values()`: the bound values, position by position with `keys()`. */
  function Values<K(!new), V>(m: CMap<K, V>): (r: seq<Option<V>>)
    requires m.Valid()
    ensures |r| == |Keys(m)|
    ensures forall i :: 0 <= i < |r| ==> Keys(m)[i] in m.data && r[i] == m.data[Keys(m)[i]]
  {
    seq(|m.order|, i requires 0 <= i < |m.order| => m.data[m.order[i]])
  }

  /** `items()`: the `(key, value)` pairs in insertion order. */
  function Items<K(!new), V>(m: CMap<K, V>): (r: seq<(K, Option<V>)>)
    requires m.Valid()
    ensures |r| == |m.data|
    ensures forall i :: 0 <= i < |r| ==> r[i].0 in m.data && r[i].1 == m.data[r[i].0]
    ensures forall k :: k in m.data ==> exists i :: 0 <= i < |r| && r[i].0 == k
    ensures forall i, j :: 0 <= i < j < |r| ==> r[i].0 != r[j].0
    ensures forall i :: 0 <= i < |r| ==> r[i].0 == Keys(m)[i]
  {
    var ks := Keys(m);
    var r := seq(|ks|, i requires 0 <= i < |ks| => (ks[i], m.data[ks[i]]));
    assert forall k :: k in m.data ==> exists i :: 0 <= i < |r| && r[i].0 == k by {
      forall k | k in m.data ensures exists i :: 0 <= i < |r| && r[i].0 == k {
        var i :| 0 <= i < |ks| && ks[i] == k;
        assert r[i].0 == k;
      }
    }
    r
  }

  /** `clear()`: removes every binding. */
  function Clear<K(!new), V>(m: CMap<K, V>): (r: CMap<K, V>)
    ensures r.Valid()
    ensures forall k :: !Contains(r, k)
    ensures Count(r) == 0
  {
    Empty()
  }

  /** `count()`: the number of bindings, `len(dict)`. */
  function Count<K(!new), V>(m: CMap<K, V>): (r: nat)
    requires m.Valid()
    ensures r == |Keys(m)|
    ensures r == 0 <==> Keys(m) == []
  {
    |m.data|
  }

  /** `len(m)` is `count()`. */
  function Len<K(!new), V>(m: CMap<K, V>): (r: nat)
    requires m.Valid()
    ensures r == |Keys(m)|
  {
    Count(m)
  }

  /** The number of bindings equals the length of the key snapshot. */
  lemma CountIsKeysLength<K(!new), V>(m: CMap<K, V>)
    requires m.Valid()
    ensures |m.data| == |m.order|
  {
    DistinctCardinality(m.order);
    assert m.data.Keys == set x | x in m.order;
  }

  /** `isEmpty()`. */
  function IsEmpty<K(!new), V>(m: CMap<K, V>): (r: bool)
    requires m.Valid()
    ensures r <==> Count(m) == 0
    ensures r <==> Keys(m) == []
  {
    CountIsKeysLength(m);
    |m.data| == 0
  }

  /** `dict.update` driven by a key list: inserts `src[k]` for each `k` of
      `keys` in turn. */
  function UpdateFrom<K(!new), V>(m: CMap<K, V>, keys: seq<K>, src: map<K, Option<V>>): (r: CMap<K, V>)
    requires m.Valid()
    requires forall k :: k in keys ==> k in src
    ensures r.Valid()
    ensures forall k :: k in keys ==> k in r.data && r.data[k] == src[k]
    ensures forall k :: k !in keys ==> (k in r.data <==> k in m.data)
    ensures forall k :: k !in keys && k in m.data ==> r.data[k] == m.data[k]
    ensures |m.order| <= |r.order| && r.order[..|m.order|] == m.order
    decreases |keys|
  {
    if keys == [] then m
    else
      var next := Insert(m, keys[0], src[keys[0]]);
      assert next.order[..|m.order|] == m.order;
      var r := UpdateFrom(next, keys[1..], src);
      assert r.order[..|m.order|] == r.order[..|next.order|][..|m.order|];
      assert forall k :: k in keys ==> k == keys[0] || k in keys[1..];
      r
  }

  /** `unite(other)`: `dict.update(other)`, walking `other` in its insertion
      order; on a shared key `other`'s value wins. */
  function Unite<K(!new), V>(m: CMap<K, V>, other: CMap<K, V>): (r: CMap<K, V>)
    requires m.Valid() && other.Valid()
    ensures r.Valid()
    ensures forall k :: k in other.data ==> k in r.data && r.data[k] == other.data[k]
    ensures forall k :: k !in other.data ==> (k in r.data <==> k in m.data)
    ensures forall k :: k !in other.data && k in m.data ==> r.data[k] == m.data[k]
    ensures |m.order| <= |r.order| && r.order[..|m.order|] == m.order
  {
    UpdateFrom(m, other.order, other.data)
  }

  /** `take(key)`: `dict.pop(key, None)`, the old value (or `None`) and the
      map without `k`. */
  function Take<K(!new), V>(m: CMap<K, V>, k: K): (r: (CMap<K, V>, Option<V>))
    requires m.Valid()
    ensures r.0.Valid()
    ensures k !in r.0.data
    ensures k in m.data ==> r.1 == m.data[k]
    ensures k !in m.data ==> r.1 == None && r.0 == m
    ensures forall j :: j != k ==> (j in r.0.data <==> j in m.data)
    ensures forall j :: j != k && j in m.data ==> r.0.data[j] == m.data[j]
  {
    var v := Value(m, k, None);
    (Remove(m, k).0, v)
  }

  /** The state the callback of `forEach` leaves after visiting `items` in order. */
  function FoldItems<K(!new), V, S>(fn: (S, K, Option<V>) -> S, s0: S, items: seq<(K, Option<V>)>): S
    decreases |items|
  {
    if items == [] then s0
    else
      var last := items[|items| - 1];
      fn(FoldItems(fn, s0, items[..|items| - 1]), last.0, last.1)
  }

  /** `forEach(fn)`: calls `fn` once per entry present at call time, in
      insertion order. The callback's effect is the state `s` it threads;
      `calls` records the arguments of each call. */
  method ForEach<K(!new), V, S>(m: CMap<K, V>, fn: (S, K, Option<V>) -> S, s0: S)
    returns (calls: seq<(K, Option<V>)>, s: S)
    requires m.Valid()
    ensures |calls| == Count(m)
    ensures forall i :: 0 <= i < |calls| ==> calls[i].0 in m.data && calls[i].1 == m.data[calls[i].0]
    ensures forall k :: k in m.data ==> exists i :: 0 <= i < |calls| && calls[i].0 == k
    ensures forall i, j :: 0 <= i < j < |calls| ==> calls[i].0 != calls[j].0
    ensures calls == Items(m)
    ensures forall i :: 0 <= i < |calls| ==> calls[i].0 == Keys(m)[i]
    ensures s == FoldItems(fn, s0, calls)
  {
    var items := Items(m);
    calls := [];
    s := s0;
    var i := 0;
    while i < |items|
      invariant 0 <= i <= |items|
      invariant calls == items[..i]
      invariant s == FoldItems(fn, s0, calls)
    {
      var (k, v) := items[i];
      assert (calls + [items[i]])[..i] == calls;
      s := fn(s, k, v);
      calls := calls + [items[i]];
      i := i + 1;
    }
    assert items[..|items|] == items;
  }

  /** `m[key]`: the stored value, or `KeyError` when the lookup yields `None`,
      whether `k` is missing or bound to `None`. */
  function GetItem<K(!new), V>(m: CMap<K, V>, k: K): (r: Result<V, MapError<K>>)
    ensures r.Success? <==> k in m.data && m.data[k].Some?
    ensures r.Success? ==> m.data[k] == Some(r.value)
    ensures r.Failure? ==> r.error == KeyError(k)
  {
    match Value(m, k, None)
    case Some(v) => Success(v)
    case None => Failure(KeyError(k))
  }

  /** `m[key] = value` is `insert`. */
  function SetItem<K(!new), V>(m: CMap<K, V>, k: K, v: Option<V>): (r: CMap<K, V>)
    requires m.Valid()
    ensures r.Valid()
    ensures GetItem(r, k).Success? <==> v.Some?
    ensures r == Insert(m, k, v)
  {
    Insert(m, k, v)
  }

  /** `del m[key]`: `remove`, raising `KeyError` when nothing was removed. */
  function DelItem<K(!new), V>(m: CMap<K, V>, k: K): (r: Result<CMap<K, V>, MapError<K>>)
    requires m.Valid()
    ensures r.Failure? <==> k !in m.data
    ensures r.Failure? ==> r.error == KeyError(k)
    ensures r.Success? ==> r.value.Valid() && k !in r.value.data && |r.value.data| == |m.data| - 1
    ensures r.Success? ==> forall j :: j != k ==> (j in r.value.data <==> j in m.data)
    ensures r.Success? ==> forall j :: j != k && j in m.data ==> r.value.data[j] == m.data[j]
    ensures r.Success? ==> r.value == Remove(m, k).0
  {
    var (m', removed) := Remove(m, k);
    if removed then
      CountIsKeysLength(m);
      CountIsKeysLength(m');
      assert |m'.order| == |m.order| - 1 by { RemoveShortensOrder(m.order, k); }
      Success(m')
    else Failure(KeyError(k))
  }

  /** Dropping an element present once shortens a sequence by one. */
  lemma {:induction false} RemoveShortensOrder<T(!new)>(s: seq<T>, x: T)
    requires Distinct(s) && x in s
    ensures |Without(s, x)| == |s| - 1
  {
    assert s == [s[0]] + s[1..];
    DistinctCons(s[0], s[1..]);
    if s[0] != x {
      RemoveShortensOrder(s[1..], x);
    }
  }

  /** `key in m` is `contains`. */
  function ContainsItem<K(!new), V>(m: CMap<K, V>, k: K): (r: bool)
    requires m.Valid()
    ensures r <==> Find(m, k).Some? || (k in m.data && m.data[k].None?)
  {
    Contains(m, k)
  }

  /** `iter(m)`: iterates over a snapshot of the keys. */
  function Iter<K(!new), V>(m: CMap<K, V>): (r: seq<K>)
    requires m.Valid()
    ensures Distinct(r)
    ensures forall k :: k in r <==> Contains(m, k)
  {
    Keys(m)
  }

  // ---------------------------------------------------------------------
  // Laws relating the operations
  // ---------------------------------------------------------------------

  /** After `insert(k, v)`, `value(k)` is `v` and every other key reads as before. */
  lemma InsertThenValue<K(!new), V>(m: CMap<K, V>, k: K, v: Option<V>, j: K, d: Option<V>)
    requires m.Valid()
    ensures Value(Insert(m, k, v), k, d) == v
    ensures j != k ==> Value(Insert(m, k, v), j, d) == Value(m, j, d)
  {
  }

  /** `insertMulti` never keeps two values for one key: the second call
      replaces the first, as one `insert` of the last value would. */
  lemma InsertMultiOverwrites<K(!new), V>(m: CMap<K, V>, k: K, v1: Option<V>, v2: Option<V>)
    requires m.Valid()
    ensures InsertMulti(InsertMulti(m, k, v1), k, v2) == Insert(m, k, v2)
  {
    var once := Insert(m, k, v1);
    assert once.data[k := v2] == m.data[k := v2];
    assert Insert(once, k, v2) == Insert(m, k, v2);
  }

  /** Dropping an element appended to a sequence that lacked it gives the
      sequence back. */
  lemma {:induction false} WithoutAppended<T(!new)>(s: seq<T>, x: T)
    requires x !in s
    ensures Without(s + [x], x) == s
  {
    if s != [] {
      assert (s + [x])[1..] == s[1..] + [x];
      WithoutAppended(s[1..], x);
    }
  }

  /** `remove` undoes an `insert` of a fresh key exactly, iteration order included. */
  lemma InsertThenRemove<K(!new), V>(m: CMap<K, V>, k: K, v: Option<V>)
    requires m.Valid() && k !in m.data
    ensures Remove(Insert(m, k, v), k) == (m, true)
  {
    WithoutAppended(m.order, k);
    assert Insert(m, k, v).data - {k} == m.data;
  }

  /** `take` of a freshly inserted key hands back the value and the old map. */
  lemma InsertThenTake<K(!new), V>(m: CMap<K, V>, k: K, v: Option<V>)
    requires m.Valid() && k !in m.data
    ensures Take(Insert(m, k, v), k) == (m, v)
  {
    InsertThenRemove(m, k, v);
  }

  /** `remove` is idempotent: the second call finds nothing and changes nothing. */
  lemma RemoveTwice<K(!new), V>(m: CMap<K, V>, k: K)
    requires m.Valid()
    ensures Remove(Remove(m, k).0, k) == (Remove(m, k).0, false)
  {
  }

  /** The result of `take` is `None` exactly when the key is missing or holds
      `None`, so a caller cannot tell the two apart from the result. */
  lemma TakeNoneAmbiguous<K(!new), V>(m: CMap<K, V>, k: K)
    requires m.Valid()
    ensures Take(m, k).1.None? <==> k !in m.data || m.data[k].None?
    ensures Take(m, k).1 == Find(m, k)
  {
  }

  /** The map holding exactly `src`'s bindings for the keys of `ks`, in that order. */
  ghost function Prefix<K(!new), V>(ks: seq<K>, src: map<K, Option<V>>): CMap<K, V>
    requires forall k :: k in ks ==> k in src
  {
    CMap(ks, map k | k in ks :: src[k])
  }

  /** Updating the prefix map of `done` with the keys `todo` yields the
      prefix map of `done + todo`. */
  lemma {:induction false} UpdateFromPrefix<K(!new), V>(done: seq<K>, todo: seq<K>, src: map<K, Option<V>>)
    requires Distinct(done + todo)
    requires forall k :: k in done + todo ==> k in src
    ensures Prefix(done, src).Valid()
    ensures UpdateFrom(Prefix(done, src), todo, src) == Prefix(done + todo, src)
    decreases |todo|
  {
    assert Distinct(done) by {
      forall i, j | 0 <= i < j < |done| ensures done[i] != done[j] {
        assert done[i] == (done + todo)[i] && done[j] == (done + todo)[j];
      }
    }
    if todo == [] {
      assert done + todo == done;
    } else {
      var k := todo[0];
      assert k !in done by {
        forall i | 0 <= i < |done| ensures done[i] != k {
          assert done[i] == (done + todo)[i] && k == (done + todo)[|done|];
        }
      }
      var m := Prefix(done, src);
      assert Insert(m, k, src[k]) == Prefix(done + [k], src);
      assert (done + [k]) + todo[1..] == done + todo;
      UpdateFromPrefix(done + [k], todo[1..], src);
    }
  }

  /** A valid map is the prefix map of its own key order. */
  lemma PrefixOfOwnOrder<K(!new), V>(m: CMap<K, V>)
    requires m.Valid()
    ensures Prefix(m.order, m.data) == m
  {
    assert Prefix(m.order, m.data).data == m.data;
  }

  /** `unite` into an empty map copies `other` exactly: the same bindings in
      the same iteration order. */
  lemma {:induction false} UniteIntoEmpty<K(!new), V>(other: CMap<K, V>)
    requires other.Valid()
    ensures Unite(Empty(), other) == other
  {
    var e: CMap<K, V> := Empty();
    var none: seq<K> := [];
    assert Prefix(none, other.data) == e;
    assert none + other.order == other.order;
    UpdateFromPrefix(none, other.order, other.data);
    assert UpdateFrom(e, other.order, other.data) == Prefix(other.order, other.data);
    PrefixOfOwnOrder(other);
  }

  /** `unite` with an empty map changes nothing. */
  lemma UniteWithEmpty<K(!new), V>(m: CMap<K, V>)
    requires m.Valid()
    ensures Unite(m, Empty()) == m
  {
  }

  /** After `clear()` the map is empty and `count()` is zero. */
  lemma ClearEmpties<K(!new), V>(m: CMap<K, V>)
    requires m.Valid()
    ensures IsEmpty(Clear(m))
    ensures Keys(Clear(m)) == []
  {
  }
}

=== FILE: GlobalState.dfy ===
/** The process-wide registry of `state.py`.

    `Global` is a static class whose five operations all delegate to one
    class-level `ConcurrentMap` keyed by strings. Because there is exactly one
    `_store`, every call from every call site is one step on the same map; a
    `Run` of a sequence of `Call`s is that shared history, in the order the
    lock admitted the calls.
 */
module GlobalState {
  import opened Wrappers
  import CM = ConcurrentMap

  datatype Global<V(!new)> = Global(store: CM.CMap<string, V>) {
    ghost predicate Valid() {
      store.Valid()
    }
  }

  /** The store as the class body creates it: empty. */
  function Init<V(!new)>(): (g: Global<V>)
    ensures g.Valid()
    ensures forall k :: !Contains(g, k)
  {
    Global(CM.Empty())
  }

  /** `Global.set(key, value)`. */
  function Set<V(!new)>(g: Global<V>, key: string, value: Option<V>): (r: Global<V>)
    requires g.Valid()
    ensures r.Valid()
    ensures Contains(r, key)
    ensures forall d :: Get(r, key, d) == value
    ensures forall k :: k != key ==> Contains(r, k) == Contains(g, k)
    ensures forall k, d :: k != key ==> Get(r, k, d) == Get(g, k, d)
  {
    Global(CM.Insert(g.store, key, value))
  }

  /** `Global.get(key, default)`: the stored value, `default` when unbound. */
  function Get<V(!new)>(g: Global<V>, key: string, default: Option<V>): (r: Option<V>)
    ensures key !in g.store.data ==> r == default
    ensures key in g.store.data ==> r == g.store.data[key]
  {
    CM.Value(g.store, key, default)
  }

  /** `Global.contains(key)`. */
  function Contains<V(!new)>(g: Global<V>, key: string): (r: bool)
    requires g.Valid()
    ensures r <==> key in CM.Keys(g.store)
  {
    key in g.store.data
  }

  /** `Global.remove(key)`: whether `key` was bound, and the store without it. */
  function Remove<V(!new)>(g: Global<V>, key: string): (r: (Global<V>, bool))
    requires g.Valid()
    ensures r.0.Valid()
    ensures r.1 <==> Contains(g, key)
    ensures !Contains(r.0, key)
    ensures forall d :: Get(r.0, key, d) == d
    ensures forall k :: k != key ==> Contains(r.0, k) == Contains(g, k)
    ensures forall k, d :: k != key ==> Get(r.0, k, d) == Get(g, k, d)
  {
    var (store, removed) := CM.Remove(g.store, key);
    (Global(store), removed)
  }

  /** `Global.clear()`. */
  function Clear<V(!new)>(g: Global<V>): (r: Global<V>)
    ensures r.Valid()
    ensures forall k :: !Contains(r, k)
    ensures forall k, d :: Get(r, k, d) == d
  {
    Global(CM.Clear(g.store))
  }

  /** `set` followed by `get` of the same key returns the value set, even a
      stored `None` over a non-`None` default. */
  lemma SetThenGet<V(!new)>(g: Global<V>, key: string, value: Option<V>, default: Option<V>)
    requires g.Valid()
    ensures Get(Set(g, key, value), key, default) == value
  {
  }

  /** `get` yields the default for a key never set, and for one just removed. */
  lemma GetDefaultWhenUnbound<V(!new)>(g: Global<V>, key: string, default: Option<V>)
    requires g.Valid()
    ensures Get(Init(), key, default) == default
    ensures Get(Remove(g, key).0, key, default) == default
  {
  }

  // ---------------------------------------------------------------------
  // One shared store: the history of calls from all call sites
  // ---------------------------------------------------------------------

  /** One call on `Global`, from whichever call site. */
  datatype Call<V(!new)> =
    | SetCall(key: string, value: Option<V>)
    | GetCall(key: string, default: Option<V>)
    | ContainsCall(key: string)
    | RemoveCall(key: string)
    | ClearCall

  /** What a call returns: nothing, a value, or a flag. */
  datatype Reply<V(!new)> = Unit | Got(value: Option<V>) | Flag(flag: bool)

  /** One atomic call on the store. */
  function Step<V(!new)>(g: Global<V>, c: Call<V>): (r: (Global<V>, Reply<V>))
    requires g.Valid()
    ensures r.0.Valid()
    ensures c.GetCall? || c.ContainsCall? ==> r.0 == g
  {
    match c
    case SetCall(k, v) => (Set(g, k, v), Unit)
    case GetCall(k, d) => (g, Got(Get(g, k, d)))
    case ContainsCall(k) => (g, Flag(Contains(g, k)))
    case RemoveCall(k) => var (g', b) := Remove(g, k); (g', Flag(b))
    case ClearCall => (Clear(g), Unit)
  }

  /** The store and the replies after the calls of `calls`, in order. */
  function Run<V(!new)>(g: Global<V>, calls: seq<Call<V>>): (r: (Global<V>, seq<Reply<V>>))
    requires g.Valid()
    ensures r.0.Valid()
    ensures |r.1| == |calls|
    decreases |calls|
  {
    if calls == [] then (g, [])
    else
      var (before, replies) := Run(g, calls[..|calls| - 1]);
      var (after, reply) := Step(before, calls[|calls| - 1]);
      (after, replies + [reply])
  }

  /** Reference meaning of a history, independent of the map: the binding
      of `key` is the one the latest `set`, `remove` or `clear` touching it
      left; `None` means unbound. */
  function LastWrite<V(!new)>(calls: seq<Call<V>>, key: string): Option<Option<V>>
    decreases |calls|
  {
    if calls == [] then None
    else
      var prev := LastWrite(calls[..|calls| - 1], key);
      match calls[|calls| - 1]
      case SetCall(k, v) => if k == key then Some(v) else prev
      case RemoveCall(k) => if k == key then None else prev
      case ClearCall => None
      case _ => prev
  }

  /** The store after any history from the initial state agrees with the
      reference meaning on every key. */
  lemma {:induction false} RunMatchesLastWrite<V(!new)>(calls: seq<Call<V>>, key: string)
    ensures Contains(Run(Init(), calls).0, key) <==> LastWrite(calls, key).Some?
    ensures forall d :: Get(Run(Init(), calls).0, key, d) == LastWrite(calls, key).GetOr(d)
    decreases |calls|
  {
    if calls != [] {
      RunMatchesLastWrite(calls[..|calls| - 1], key);
    }
  }

  /** The replies to a history's first `i` calls do not depend on what follows. */
  lemma {:induction false} RunPrefix<V(!new)>(g: Global<V>, calls: seq<Call<V>>, i: nat)
    requires g.Valid()
    requires i < |calls|
    ensures Run(g, calls).1[i] == Step(Run(g, calls[..i]).0, calls[i]).1
    decreases |calls|
  {
    var n := |calls| - 1;
    var before := Run(g, calls[..n]);
    assert Run(g, calls).1 == before.1 + [Step(before.0, calls[n]).1];
    if i < n {
      assert calls[..n][..i] == calls[..i];
      RunPrefix(g, calls[..n], i);
    } else {
      assert calls[..i] == calls[..n];
    }
  }

  /** A `get` anywhere in the history sees the latest `set` of its key made
      before it, from any call site, unless a `remove` or `clear` came in
      between, in which case it sees its default. */
  lemma GetSeesLatestSet<V(!new)>(calls: seq<Call<V>>, i: nat)
    requires i < |calls| && calls[i].GetCall?
    ensures Run(Init(), calls).1[i] == Got(LastWrite(calls[..i], calls[i].key).GetOr(calls[i].default))
  {
    RunPrefix(Init(), calls, i);
    RunMatchesLastWrite(calls[..i], calls[i].key);
  }

  /** `remove` answers whether the key was bound, judged by the history before it. */
  lemma RemoveSeesHistory<V(!new)>(calls: seq<Call<V>>, i: nat)
    requires i < |calls| && calls[i].RemoveCall?
    ensures Run(Init(), calls).1[i] == Flag(LastWrite(calls[..i], calls[i].key).Some?)
  {
    RunPrefix(Init(), calls, i);
    RunMatchesLastWrite(calls[..i], calls[i].key);
  }
}

=== FILE: Session.dfy ===
/** The cookie-session store of `src/session.py`.

    A session is one JSON file, `<dir>/session_<port>.json`, holding the
    cookie list of the browser context. The file system is a `FileStore`:
    a path that is a key exists; its content is `Some(cookies)` when the
    file's bytes parse as a cookie list and `None` when they do not (the
    file helpers then return `None`). Whether opening and reading an
    existing file succeeds is a separate I/O fault, `readOk`. The page handed to `save`/`load`
    is `None` when absent; otherwise only its context's cookie jar matters.
    I/O faults the source catches are explicit parameters.
 */
module Session {
  import opened Wrappers

  /** One cookie as the browser context reports it. */
  datatype Cookie = Cookie(
    name: string, value: string, domain: string, path: string,
    expires: int, httpOnly: bool, secure: bool, sameSite: string)

  /** A file path, kept as its directory and its file name. */
  datatype FilePath = FilePath(dir: string, name: string)

  type FileStore = map<FilePath, Option<seq<Cookie>>>

  /** A page; `jar` is the cookie list of its browser context. */
  datatype Page = Page(jar: seq<Cookie>)

  /** How the write of a session file ends. */
  datatype WriteFault =
    | NoFault
      // reading the context's cookies, creating the directory or opening the
      // file raises: the file is left as it was
    | FailedBeforeWrite
      // the file was opened for writing (truncated) and the JSON dump raised:
      // what is left does not parse
    | FailedDuringWrite

  datatype Session = Session(file: FilePath)

  const DefaultDir: string := "./sessions"
  const DefaultPort: int := 9222
  const FilePrefix: string := "session_"
  const FileSuffix: string := ".json"

  // ---------------------------------------------------------------------
  // The file name: f"session_{port}.json"
  // ---------------------------------------------------------------------

  function DigitChar(d: nat): (c: char)
    requires d < 10
    ensures '0' <= c <= '9'
  {
    ('0' as int + d) as char
  }

  /** The decimal digits of `n`, most significant first, without leading zeros. */
  function NatText(n: nat): (r: string)
    ensures 1 <= |r|
    ensures forall i :: 0 <= i < |r| ==> '0' <= r[i] <= '9'
    ensures n < 10 <==> |r| == 1
  {
    if n < 10 then [DigitChar(n)] else NatText(n / 10) + [DigitChar(n % 10)]
  }

  /** Python's `str(port)`: a minus sign before the digits of a negative number. */
  function IntText(i: int): (r: string)
    ensures 1 <= |r|
    ensures i < 0 <==> r[0] == '-'
  {
    if i < 0 then "-" + NatText(-i) else NatText(i)
  }

  /** Different numbers have different decimal renderings. */
  lemma {:induction false} NatTextInjective(a: nat, b: nat)
    requires NatText(a) == NatText(b)
    ensures a == b
  {
    if 10 <= a {
      var s := NatText(a);
      assert s[..|s| - 1] == NatText(a / 10) && s[|s| - 1] == DigitChar(a % 10);
      assert s[..|s| - 1] == NatText(b / 10) && s[|s| - 1] == DigitChar(b % 10);
      NatTextInjective(a / 10, b / 10);
    }
  }

  lemma IntTextInjective(a: int, b: int)
    requires IntText(a) == IntText(b)
    ensures a == b
  {
    if a < 0 {
      assert IntText(a)[1..] == NatText(-a) && IntText(b)[1..] == NatText(-b);
      NatTextInjective(-a, -b);
    } else {
      NatTextInjective(a, b);
    }
  }

  /** The session file name of a port. */
  function FileName(port: int): (r: string)
    ensures |FilePrefix| + 1 + |FileSuffix| <= |r|
    ensures r[..|FilePrefix|] == FilePrefix
    ensures r[|r| - |FileSuffix|..] == FileSuffix
    ensures r[|FilePrefix|..|r| - |FileSuffix|] == IntText(port)
  {
    var r := FilePrefix + IntText(port) + FileSuffix;
    assert r[|FilePrefix|..|r| - |FileSuffix|] == IntText(port);
    r
  }

  /** Sessions of different ports never share a file. */
  lemma FileNameInjective(p: int, q: int)
    requires FileName(p) == FileName(q)
    ensures p == q
  {
    IntTextInjective(p, q);
  }

  // ---------------------------------------------------------------------
  // Session operations
  // ---------------------------------------------------------------------

  /** `session_dir or "./sessions"`: both `None` and the empty string fall back. */
  function DirOrDefault(sessionDir: Option<string>): (r: string)
    ensures sessionDir.Some? && sessionDir.value != "" ==> r == sessionDir.value
    ensures sessionDir.None? || sessionDir.value == "" ==> r == DefaultDir
    ensures r != ""
  {
    match sessionDir
    case Some(d) => if d != "" then d else DefaultDir
    case None => DefaultDir
  }

  /** `Session(session_dir, port)`: the session file is
      `session_dir / "session_<port>.json"`. */
  function NewSession(sessionDir: Option<string>, port: int): (s: Session)
    ensures s.file.dir == DirOrDefault(sessionDir)
    ensures |FilePrefix| + 1 + |FileSuffix| <= |s.file.name|
    ensures s.file.name[..|FilePrefix|] == FilePrefix
    ensures s.file.name[|FilePrefix|..|s.file.name| - |FileSuffix|] == IntText(port)
    ensures s.file.name[|s.file.name| - |FileSuffix|..] == FileSuffix
  {
    Session(FilePath(DirOrDefault(sessionDir), FileName(port)))
  }

  /** Two sessions share a file exactly when they have the same directory
      and the same port. */
  lemma SessionFileIdentity(d1: Option<string>, p1: int, d2: Option<string>, p2: int)
    ensures NewSession(d1, p1).file == NewSession(d2, p2).file
        <==> DirOrDefault(d1) == DirOrDefault(d2) && p1 == p2
  {
    if NewSession(d1, p1).file == NewSession(d2, p2).file {
      FileNameInjective(p1, p2);
    }
  }

  /** `Session()` with no arguments uses `./sessions/session_9222.json`. */
  lemma DefaultSessionFile()
    ensures NewSession(None, DefaultPort).file == FilePath("./sessions", "session_9222.json")
  {
    assert DigitChar(9) == '9' && DigitChar(2) == '2';
    assert NatText(9) == "9";
    assert NatText(92) == NatText(9) + [DigitChar(2)];
    assert NatText(922) == NatText(92) + [DigitChar(2)];
    assert NatText(9222) == NatText(922) + [DigitChar(2)];
    assert IntText(DefaultPort) == "9222";
    assert FileName(DefaultPort) == FilePrefix + "9222" + FileSuffix;
    assert FilePrefix + "9222" + FileSuffix == "session_9222.json";
  }

  /** `save(page)`: writes the context's cookie list to the session file. */
  function Save(s: Session, fs: FileStore, page: Option<Page>, fault: WriteFault): (r: (FileStore, bool))
    ensures r.1 <==> page.Some? && fault == NoFault
    ensures r.1 ==> r.0 == fs[s.file := Some(page.value.jar)]
    ensures page.None? || fault == FailedBeforeWrite ==> r.0 == fs
    ensures page.Some? && fault == FailedDuringWrite ==> r.0 == fs[s.file := None]
  {
    match page
    case None => (fs, false)
    case Some(p) =>
      match fault
      case NoFault => (fs[s.file := Some(p.jar)], true)
      case FailedBeforeWrite => (fs, false)
      case FailedDuringWrite => (fs[s.file := None], false)
  }

  /** `load(page)`: when the session file exists and holds a non-empty cookie
      list, adds it to the page's context. `readOk` is whether opening and
      reading the file succeeds, whatever its content; `addOk` is whether
      the context accepts the cookies. */
  function Load(s: Session, fs: FileStore, page: Option<Page>, readOk: bool, addOk: bool): (r: (Option<Page>, bool))
    ensures r.1 <==> && page.Some? && s.file in fs && readOk && fs[s.file].Some?
                     && fs[s.file].value != [] && addOk
    ensures r.1 ==> r.0 == Some(Page(page.value.jar + fs[s.file].value))
    ensures !r.1 ==> r.0 == page
  {
    match page
    case None => (page, false)
    case Some(p) =>
      if s.file !in fs || !readOk then (page, false)
      else
        match fs[s.file]
        case None => (page, false)
        case Some(cookies) =>
          if cookies != [] && addOk then (Some(Page(p.jar + cookies)), true)
          else (page, false)
  }

  /** `clear()`: deletes the session file; true only when a file was removed.
      `unlinkOk` is whether the deletion itself succeeds. */
  function Clear(s: Session, fs: FileStore, unlinkOk: bool): (r: (FileStore, bool))
    ensures r.1 <==> s.file in fs && unlinkOk
    ensures r.1 ==> r.0 == fs - {s.file}
    ensures !r.1 ==> r.0 == fs
    ensures unlinkOk ==> !Exists(s, r.0)
  {
    if s.file in fs && unlinkOk then (fs - {s.file}, true) else (fs, false)
  }

  /** `exists()`: whether the session file is present. A session that does
      not exist loads into no page. */
  function Exists(s: Session, fs: FileStore): (r: bool)
    ensures !r ==> forall page, readOk, addOk :: Load(s, fs, page, readOk, addOk) == (page, false)
  {
    s.file in fs
  }

  // ---------------------------------------------------------------------
  // Laws
  // ---------------------------------------------------------------------

  /** A successful save of a non-empty cookie list, then a load whose read
      succeeds into a page with an empty jar, restores exactly that list. */
  lemma SaveThenLoad(s: Session, fs: FileStore, saved: Page, target: Page)
    requires saved.jar != [] && target.jar == []
    ensures var (fs', ok) := Save(s, fs, Some(saved), NoFault);
            ok && Load(s, fs', Some(target), true, true) == (Some(saved), true)
  {
    assert [] + saved.jar == saved.jar;
  }

  /** An empty saved session is written, yet does not load as success, and
      the target's cookies stay as they were. */
  lemma SaveEmptyThenLoad(s: Session, fs: FileStore, saved: Page, target: Option<Page>, readOk: bool, addOk: bool)
    requires saved.jar == []
    ensures Save(s, fs, Some(saved), NoFault).1
    ensures Load(s, Save(s, fs, Some(saved), NoFault).0, target, readOk, addOk) == (target, false)
  {
  }

  /** A save that failed half-way leaves a session that never loads. */
  lemma FailedSaveDoesNotLoad(s: Session, fs: FileStore, saved: Page, target: Option<Page>, readOk: bool, addOk: bool)
    ensures Load(s, Save(s, fs, Some(saved), FailedDuringWrite).0, target, readOk, addOk) == (target, false)
  {
  }

  /** Without a page, or without a session file, `load` fails and adds nothing. */
  lemma LoadWithoutFileOrPage(s: Session, fs: FileStore, page: Option<Page>, readOk: bool, addOk: bool)
    requires page.None? || !Exists(s, fs)
    ensures Load(s, fs, page, readOk, addOk) == (page, false)
  {
  }

  /** `exists()` follows the other operations: a save that opened the file
      makes it exist, a clear succeeds exactly on an existing file and a
      successful load needs one. */
  lemma ExistsTracksOperations(s: Session, fs: FileStore, page: Option<Page>, fault: WriteFault,
                               unlinkOk: bool, readOk: bool, addOk: bool)
    ensures Exists(s, Save(s, fs, page, fault).0)
        <==> Exists(s, fs) || (page.Some? && fault != FailedBeforeWrite)
    ensures Save(s, fs, page, fault).1 ==> Exists(s, Save(s, fs, page, fault).0)
    ensures Clear(s, fs, unlinkOk).1 <==> Exists(s, fs) && unlinkOk
    ensures Load(s, fs, page, readOk, addOk).1 ==> Exists(s, fs)
  {
  }

  /** After a successful clear the session no longer exists, and clearing
      again reports false rather than failing. */
  lemma ClearTwice(s: Session, fs: FileStore)
    ensures var (fs', _) := Clear(s, fs, true);
            !Exists(s, fs') && Clear(s, fs', true) == (fs', false)
  {
  }

  /** Saving the session of one port leaves the session of another port, in
      the same directory, as it was. */
  lemma SavesOfDifferentPortsIndependent(dir: Option<string>, p: int, q: int,
                                         fs: FileStore, page: Option<Page>, fault: WriteFault,
                                         target: Option<Page>, readOk: bool, addOk: bool)
    requires p != q
    ensures var other := NewSession(dir, q);
            var (fs', _) := Save(NewSession(dir, p), fs, page, fault);
            Load(other, fs', target, readOk, addOk) == Load(other, fs, target, readOk, addOk)
            && Exists(other, fs') == Exists(other, fs)
  {
    SessionFileIdentity(dir, p, dir, q);
  }
}

=== FILE: Wrappers.dfy ===
/** Option and result types shared by the rest of the model.

    `Option` doubles as Python's nullable value: `None` is Python's `None`,
    `Some(v)` any other object. `Result` carries the exception a Python
    operation raises instead of returning.
 */
module Wrappers {

  datatype Option<+T> = None | Some(value: T) {

    /** The encapsulated value, or `default` when this is `None`. */
    function GetOr(default: T): T {
      match this
      case Some(v) => v
      case None => default
    }
  }

  datatype Result<+R, +E> = Success(value: R) | Failure(error: E)
}
